=== FILE: README.md ===
# drive-drawers: token service, Drive client and preview dispatch in Dafny

This project models the logic at the centre of the drive-drawers browser-extension popup. The popup lets a user browse and preview Google Drive files. Three pieces are modelled:

- **`DriveAuth`** (`drive_auth.dfy`): the `GoogleDriveAuthService` token slot. It is a small state machine over one optional `{token, expiresAt}` credential and the copy kept in the browser's local storage. The clock is the explicit parameter `now`, in milliseconds. The identity reply and whether each storage write took effect are explicit inputs. The storage callbacks resolve without looking at `chrome.runtime.lastError`. So a failed write changes only what storage holds, never what the operation returns.
- **`DriveService`** (`drive_service.dfy`): `listFiles`, `getFile` and `searchFiles`. This covers the token gate, the filter strings, the ok/non-ok/rejected branches and the mapping from raw Drive records to `DriveFile`. The HTTP exchange is a parameter: the outcome the request would have had. Each call returns the request it issued, if any, together with its result.
- **`FilePreview`** (`file_preview.dfy`): the preview dialog. It covers the fetch-path choice (viewer URL or blob), the first-match render classifier, and the loading/error/close state.
- **`Decimal`** (`decimal.dfy`) holds the part of `parseInt(s, 10)` the client uses and the decimal rendering of a status code. **`Common`** (`common.dfy`) holds `Option`, `Result` and `StartsWith`.

The model follows the code as written. Points worth knowing:

- `isAuthenticated` and `getToken` read only the in-memory slot. They do not re-read storage. `StorageNotReread` states this.
- `initialize` leaves the slot as it was when storage is empty. It does not reset the slot.
- `signOut` resolves to nothing. It does not report success.
- Only the `listFiles` failure message carries the HTTP status. The `getFile` and `searchFiles` failure messages carry only the status text.
- `isAuthenticated` is computed at the start of `listFiles` but its result is ignored. Only the truthiness of `getToken` decides the gate. So an unexpired empty token in the slot passes `isAuthenticated` but is refused by every operation (`EmptyTokenRefused`). It can only get into the slot by a load from storage, since `authenticate` refuses "".

## Model

| member | source | states |
|---|---|---|
| DriveAuth.LoadTokenFromStorage | src/services/googleDriveAuth.ts:13-26 | `initialize`, which is just this load: a stored token replaces the slot; when storage is empty the whole state is unchanged; storage itself is never altered by a load |
| DriveAuth.IsAuthenticated | src/services/googleDriveAuth.ts:29-31 | holds exactly when the in-memory slot holds a token with `expiresAt > now`; an authenticated service was authenticated at every earlier instant, and a token whose expiry equals `now` does not count (see also ExpiryIsStrict, ExpiryIsMonotone and StorageNotReread) |
| DriveAuth.GetToken | src/services/googleDriveAuth.ts:34-40 | returns null exactly when `isAuthenticated` is false at the same instant, and otherwise the slot's token string unchanged |
| DriveAuth.ExpiryIsStrict | src/services/googleDriveAuth.ts:29-31 | a token whose expiry equals `now` is not authenticated and yields no token |
| DriveAuth.ExpiryIsMonotone | src/services/googleDriveAuth.ts:29-40 | once unauthenticated at t, the same state is unauthenticated and yields no token at every later t' |
| DriveAuth.ExpiredStaysExpired | src/services/googleDriveAuth.ts:17-98 | when neither slot nor storage holds a token usable at t, no run of loads and sign-outs (no `authenticate`) makes the service authenticated at any t' >= t |
| DriveAuth.Authenticate | src/services/googleDriveAuth.ts:43-71 | an identity error or a missing/empty token returns false and leaves the state unchanged; otherwise the slot becomes `{token, now + 3600000}` and storage receives it if the write takes effect; the result is true exactly when the token was granted, whether or not the write took effect |
| DriveAuth.AuthenticateWindow | src/services/googleDriveAuth.ts:55-64 | after a successful `authenticate` at `now`, whatever happened to the storage write, `isAuthenticated(t)` holds exactly for t < now + 3600000, and `getToken` returns the granted token within that hour |
| DriveAuth.AuthenticateThenLoad | src/services/googleDriveAuth.ts:58-80 | after a granted `authenticate` whose storage write took effect, slot and storage agree, so reloading from storage changes nothing |
| DriveAuth.AuthenticateUnwrittenThenLoad | src/services/googleDriveAuth.ts:58-80 | when the storage write silently failed, `authenticate` still resolves to true, and a later reload puts the older stored token back in the slot |
| DriveAuth.SignOut | src/services/googleDriveAuth.ts:83-98 | with an empty slot nothing happens and no request is made; otherwise the slot is empty afterwards whatever storage does, storage is cleared when the removal takes effect, and the revocation request carrying the signed-out token is always issued |
| DriveAuth.RevokeUrl | src/services/googleDriveAuth.ts:94 | the revocation URL is the fixed endpoint followed by the raw token |
| DriveAuth.SignOutThenLoad | src/services/googleDriveAuth.ts:83-107 | after any sign-out the service is unauthenticated; when the stored copy was removed, a reload from storage does not bring the token back |
| DriveAuth.SignOutUnremovedThenLoad | src/services/googleDriveAuth.ts:83-107 | when the removal silently failed and the stored token is still unexpired, the revocation request is sent anyway and a reload authenticates the service again |
| DriveAuth.StorageNotReread | src/services/googleDriveAuth.ts:29-40 | removing the stored token behind the service's back changes neither `isAuthenticated` nor `getToken` |
| Decimal.Show | src/services/googleDriveServices.ts:79-81 | the decimal text of a status code is a non-empty digit string with no leading zero that denotes the number |
| Decimal.ParseInt | src/services/googleDriveServices.ts:92-93 | `parseInt` yields NaN exactly when the string is empty or does not start with a digit |
| Decimal.ParseAllDigits | src/services/googleDriveServices.ts:92-93 | a non-empty string of digits is read in full, to the number it denotes |
| Decimal.ParseLeadingDigits | src/services/googleDriveServices.ts:92-93 | `parseInt` reads the leading run of digits and ignores any text after the first non-digit |
| Decimal.ParseShow | src/services/googleDriveServices.ts:79-81 | reading back a rendered number followed by non-digit text recovers the number |
| DriveService.ParsedSize | src/services/googleDriveServices.ts:92-93 | a numeric size passes through, a digit string becomes its value, a string not starting with a digit becomes NaN, an absent size stays absent |
| DriveService.CopiedSize | src/services/googleDriveServices.ts:137 | `getFile` passes the size through unconverted, a string staying a string |
| DriveService.FirstParent | src/services/googleDriveServices.ts:141 | the parent is the first element of `parents`, absent when `parents` is missing or empty |
| DriveService.ListParent | src/services/googleDriveServices.ts:97 | the listing parent is absent exactly for the folder "root" and otherwise is the requested folder |
| DriveService.Normalise | src/services/googleDriveServices.ts:88-98 | every record copies id, name, MIME type, modified time and icon link from its raw entry, and `isFolder` holds exactly when the MIME type is the folder type |
| DriveService.MapListEntries | src/services/googleDriveServices.ts:88-98 | N raw entries give N records, the i-th record normalised from the i-th entry |
| DriveService.MapSearchEntries | src/services/googleDriveServices.ts:179-189 | N raw entries give N records, the i-th record normalised from the i-th entry |
| DriveService.ListQuery | src/services/googleDriveServices.ts:55 | the listing filter is exactly an opening quote, the folder id unescaped, and the fixed tail `' in parents and trashed = false` |
| DriveService.SearchQuery | src/services/googleDriveServices.ts:156 | the search filter is exactly the fixed head `name contains '`, the query unescaped, and the fixed tail `' and trashed = false` |
| DriveService.QueriesDetermineArgument | src/services/googleDriveServices.ts:55-156 | two different folder ids, or two different queries, never give the same filter string |
| DriveService.SearchQueryNotEscaped | src/services/googleDriveServices.ts:156 | for any query of the form `a' or c`, the filter reads as the complete clause `name contains 'a'`, then ` or `, then `c` and the fixed tail, so the rest of the query becomes filter syntax |
| DriveService.CheckAuthStatus | src/services/googleDriveServices.ts:34-36 | `checkAuthStatus` holds exactly when `getToken` would return a token |
| DriveService.EffectiveFolder | src/services/googleDriveServices.ts:38 | an omitted folder argument means "root" |
| DriveService.ListFailureMessage | src/services/googleDriveServices.ts:79-81 | the message starts with "Failed to fetch files: "; the number read after it is exactly the HTTP status; after the status come a blank, the status text, " - " and the response text |
| DriveService.ListFiles | src/services/googleDriveServices.ts:38-107 | without a usable token: "Not authenticated" and no request; otherwise one listing request with the folder filter and the token as bearer; success exactly on an ok response, with the records matching the entries one by one (copied fields, derived folder flag, parsed size, parent from the folder); a non-ok response fails with `ListFailureMessage` of that response, never a partial list; a rejected fetch is rethrown as the network error it was, never as "not authenticated" |
| DriveService.GetFile | src/services/googleDriveServices.ts:109-147 | without a usable token: "Not Authenticated" and no request; otherwise one metadata request; success exactly on an ok response, with copied fields, derived folder flag, unconverted size and first parent; a non-ok response fails with "Failed to fetch file: " and the status text; a rejected fetch is rethrown as the network error it was |
| DriveService.GetFileTyped | src/services/googleDriveServices.ts:109-147 | the same request and the same failures as `getFile`; on success the record is the one `searchFiles` builds from the same raw entry, so its size is converted and never left a string |
| DriveService.GetFileSizeUnconverted | src/services/googleDriveServices.ts:137 | for a record whose size arrives as the string "2048", `getFile` returns the string while `searchFiles` and the typed variant return the number 2048 |
| DriveService.SearchFiles | src/services/googleDriveServices.ts:149-194 | without a usable token: "Not authenticated" and no request; otherwise one request with the name-contains filter; success exactly on an ok response, with records matching entries one by one and parent from `parents[0]`; a non-ok response fails with the search failure message and the status text; a rejected fetch is rethrown as the network error it was |
| DriveService.GateBeforeRequest | src/services/googleDriveServices.ts:46-154 | when the service is not authenticated, all three operations fail with a not-authenticated error and issue no request, whatever the network would answer |
| DriveService.EmptyTokenRefused | src/services/googleDriveServices.ts:40-154 | an unexpired empty token in the slot (it can only get there by a load from storage, since `authenticate` refuses "") makes `isAuthenticated` true, but `listFiles`, `getFile` and `searchFiles` still fail as not authenticated |
| DriveService.ListFailureCarriesStatus | src/services/googleDriveServices.ts:76-82 | a non-ok listing fails with a message that starts with the fixed prefix, and parsing the number after the prefix gives back the exact upstream status |
| DriveService.ListFolderFlag | src/services/googleDriveServices.ts:96 | in a successful listing the i-th record is a folder exactly when the i-th raw entry has the folder MIME type |
| DriveService.RootScenario | src/services/googleDriveServices.ts:88-98 | listing a root holding folder F1 and file doc.pdf gives two records in order, F1 a folder and doc.pdf not, neither with a parent, the string size "2048" read as 2048; fetching F1 with `getFile` recovers "root" as its parent |
| FilePreview.ChooseFetchPath | src/components/FilePreview.tsx:30-48 | the viewer-URL path is chosen exactly for "application/pdf" and for types starting "application/vnd.google-apps."; all others take the blob path |
| FilePreview.ChooseRenderBranch | src/components/FilePreview.tsx:67-122 | with no file the unsupported branch is rendered |
| FilePreview.RenderIsFirstMatch | src/components/FilePreview.tsx:67-122 | each render branch is chosen exactly when its own test holds and every earlier test (image/, pdf or google-apps, video/, audio/, text/) fails |
| FilePreview.ViewerTypeIsNotImage | src/components/FilePreview.tsx:68-82 | no type routed to the viewer starts with "image/" |
| FilePreview.ViewerPathMeansIframe | src/components/FilePreview.tsx:30-82 | a type is fetched by viewer URL exactly when it is rendered by the iframe branch, and so never by the image branch |
| FilePreview.MediaTypesUseBlob | src/components/FilePreview.tsx:30-115 | every type starting image/, video/, audio/ or text/ takes the blob path |
| FilePreview.Initial | src/components/FilePreview.tsx:12-16 | the `useState` initial values: closed, not loading, no error, both URLs empty, so there is no blob URL to revoke |
| FilePreview.HandleClose | src/components/FilePreview.tsx:18-24 | closing clears error and blob URL, stops loading and closes the dialog; the state equals the initial one except for the viewer URL, which is kept |
| FilePreview.FetchPreview | src/components/FilePreview.tsx:26-56 | loading is off afterwards; a throw sets "Failed to load preview" and changes nothing else; success stores the URL in the viewer slot for viewer types and in the blob slot otherwise, leaving the other slot and any earlier error as they were |
| FilePreview.OnFileChange | src/components/FilePreview.tsx:124-129 | a new file opens the dialog and ends with loading off; no file changes nothing |
| FilePreview.DisplayedUrl | src/components/FilePreview.tsx:67-121 | the iframe shows `viewerUrl`; the image, video, audio and text branches show `fileUrl` (the text branch prints the blob URL string itself in a `<pre>`, not the file's content); the unsupported branch shows no URL |
| FilePreview.RenderShowsFetchedUrl | src/components/FilePreview.tsx:67-115 | after a successful fetch, the branch that renders the file displays exactly the URL just fetched, whichever path fetched it |
| FilePreview.FailedFetchShowsError | src/components/FilePreview.tsx:50-53 | after a failed fetch the error is "Failed to load preview" and loading is off |
| FilePreview.ShouldRevoke | src/components/FilePreview.tsx:59-65 | the cleanup revokes a URL exactly when it starts with "blob:", so never the empty string |

## Findings

| source | as written | input that shows it | evidently intended | confidence | as-written member | corrected member |
|---|---|---|---|---|---|---|
| src/services/googleDriveServices.ts:137 | `getFile` copies `data.size` unconverted into a `DriveFile`, whose `size` is declared a number | a metadata response whose `size` is the JSON string "2048" (the Drive API sends sizes as strings) gives a record whose `size` is the string "2048" | convert the size as `listFiles` and `searchFiles` do (lines 92-93, 183-184), giving the number 2048 | medium; not executed | DriveService.GetFile, shown by DriveService.GetFileSizeUnconverted | DriveService.GetFileTyped |

## Left out

- The bodies of `chrome.storage.local`, `chrome.identity`, `fetch`, `response.json()` and `response.text()` are not modelled. Their results are parameters: an identity reply, a boolean write or remove outcome, and a rejected or resolved fetch with status, status text, text and decoded body.
- In the source, the storage write in `authenticate` and the removal in `signOut` resolve without checking `chrome.runtime.lastError`. The model therefore lets a write silently not take effect, but never lets the promise reject. So the `.catch` branch of `authenticate`, which would resolve false, is not modelled: it cannot be reached.
- The revocation `fetch` in `signOut` has no effect on state, and its rejection is swallowed. So the model records only whether the request was issued and its URL.
- `encodeURIComponent` and the full request URLs (base URL, `&fields=`, `&pageSize=`) are not modelled. A request is the filter string before encoding, the fields projection, the page size and the bearer token.
- `getViewerUrl` and `getFileForPreview` are called by the preview but are not part of this model. Their outcome is the `FetchOutcome` parameter. `URL.createObjectURL` is folded into that outcome.
- `parseInt` leading whitespace and signs are not modelled. A string such as "-5" or " 7" reads as NaN here, while JavaScript reads a number.
- JSON numbers are modelled as integers; fractional sizes are not modelled.
- A response body without a `files` array, and a `response.json()` that throws, are not modelled. Each is an unhandled `TypeError` or rejection in the source.
- Asynchronous interleaving is not modelled. Each operation is one atomic step, so stale responses overtaking newer ones are not represented.
- Logging (`console.*`), React rendering, JSX and styling are not modelled. The `onClose` callback of `handleClose` is left to the caller.
- DriveService.ParsedSize: for a string that starts with digits and continues with other characters (such as "12abc"), the contract says only that the result is a number. `Decimal.ParseLeadingDigits` gives the exact value, that of the leading digits.

=== FILE: common.dfy ===
/** Small shared vocabulary: optional values (JavaScript's `null`/`undefined`),
    results of operations that may throw, and string prefixes. */
module Common {

  /** A value that may be absent: `null` or `undefined` in the source. */
  datatype Option<+T> = None | Some(value: T) {
    function GetOr(default: T): T {
      match this
      case Some(v) => v
      case None => default
    }
  }

  /** The outcome of an operation that either returns a value or throws. */
  datatype Result<+R, +E> = Success(value: R) | Failure(error: E)

  /** `s.startsWith(p)` */
  predicate StartsWith(s: string, p: string) {
    |p| <= |s| && s[..|p|] == p
  }

  /** Two prefixes that disagree at some position cannot both start the same string. */
  lemma PrefixesClash(s: string, p: string, q: string, i: nat)
    requires i < |p| && i < |q| && p[i] != q[i]
    ensures StartsWith(s, p) ==> !StartsWith(s, q)
  {
    if StartsWith(s, p) && |q| <= |s| {
      assert s[..|p|][i] == s[i];
      assert s[..|q|][i] == s[i];
    }
  }
}

=== FILE: decimal.dfy ===
/** Decimal digits: the subset of JavaScript's `parseInt(s, 10)` the model
    needs, and the decimal rendering of a natural number that a template
    literal performs on an HTTP status code. */
module Decimal {
  import opened Common

  predicate IsDigit(c: char) {
    '0' <= c <= '9'
  }

  predicate AllDigits(s: string) {
    forall i :: 0 <= i < |s| ==> IsDigit(s[i])
  }

  function DigitValue(c: char): nat
    requires IsDigit(c)
  {
    (c as int) - ('0' as int)
  }

  function DigitChar(d: nat): char
    requires d < 10
  {
    (('0' as int) + d) as char
  }

  /** The number a string of decimal digits denotes, most significant digit first. */
  function ValueOf(s: string): nat
    requires AllDigits(s)
  {
    if |s| == 0 then 0 else ValueOf(s[..|s| - 1]) * 10 + DigitValue(s[|s| - 1])
  }

  /** Length of the longest run of digits at the start of `s`. */
  function DigitPrefixLength(s: string): (k: nat)
    ensures k <= |s|
    ensures AllDigits(s[..k])
    ensures k < |s| ==> !IsDigit(s[k])
  {
    if |s| == 0 || !IsDigit(s[0]) then 0
    else
      var k := 1 + DigitPrefixLength(s[1..]);
      assert s[..k] == [s[0]] + s[1..][..k - 1];
      k
  }

  /** `parseInt(s, 10)` on strings without leading blanks or sign: the value of
      the leading digits, or `None` (NaN) when `s` does not start with a digit. */
  function ParseInt(s: string): (r: Option<nat>)
    ensures r.None? <==> (|s| == 0 || !IsDigit(s[0]))
  {
    var k := DigitPrefixLength(s);
    if k == 0 then None else Some(ValueOf(s[..k]))
  }

  /** The decimal text of `n`, as `${n}` renders it: no leading zeros, "0" for zero. */
  function Show(n: nat): (s: string)
    ensures |s| > 0 && AllDigits(s)
    ensures ValueOf(s) == n
    ensures |s| > 1 ==> s[0] != '0'
  {
    if n < 10 then [DigitChar(n)]
    else
      var p := Show(n / 10);
      var s := p + [DigitChar(n % 10)];
      assert s[..|s| - 1] == p;
      s
  }

  /** The whole of a string of digits is read by `parseInt`. */
  lemma {:induction false} ParseAllDigits(s: string)
    requires |s| > 0 && AllDigits(s)
    ensures ParseInt(s) == Some(ValueOf(s))
  {
    DigitPrefixOfDigits(s);
    assert s[..|s|] == s;
  }

  lemma {:induction false} DigitPrefixOfDigits(s: string)
    requires AllDigits(s)
    ensures DigitPrefixLength(s) == |s|
  {
    if |s| > 0 {
      DigitPrefixOfDigits(s[1..]);
    }
  }

  /** The digits are read up to the first non-digit; what follows is ignored. */
  lemma {:induction false} DigitPrefixStopsAt(d: string, rest: string)
    requires AllDigits(d)
    requires |rest| == 0 || !IsDigit(rest[0])
    ensures DigitPrefixLength(d + rest) == |d|
  {
    if |d| > 0 {
      assert (d + rest)[1..] == d[1..] + rest;
      DigitPrefixStopsAt(d[1..], rest);
    }
  }

  /** `parseInt` reads the leading run of digits and ignores the text after it. */
  lemma ParseLeadingDigits(d: string, rest: string)
    requires |d| > 0 && AllDigits(d)
    requires |rest| == 0 || !IsDigit(rest[0])
    ensures ParseInt(d + rest) == Some(ValueOf(d))
  {
    DigitPrefixStopsAt(d, rest);
    assert (d + rest)[..|d|] == d;
  }

  /** Rendering a number and reading it back, whatever non-digit text follows,
      recovers the number. */
  lemma ParseShow(n: nat, rest: string)
    requires |rest| == 0 || !IsDigit(rest[0])
    ensures ParseInt(Show(n) + rest) == Some(n)
  {
    ParseLeadingDigits(Show(n), rest);
  }
}

=== FILE: drive_auth.dfy ===
/** The Google Drive token service: one optional in-memory credential slot,
    mirrored to the browser's local storage under the key "auth_token".
    The clock is the explicit parameter `now` (milliseconds); the browser's
    storage and identity callbacks are explicit outcome parameters. The
    storage writes resolve in their callbacks without consulting
    `chrome.runtime.lastError`, so whether a write took effect changes what
    storage holds but never what the operation resolves to. */
module DriveAuth {
  import opened Common

  /** Validity window granted to every new token: one hour, in milliseconds. */
  const TokenLifetimeMs: int := 3600 * 1000

  const RevokeEndpoint: string := "https://accounts.google.com/o/oauth2/revoke?token="

  /** A bearer token and the instant (ms since the epoch) it stops being usable. */
  datatype AuthToken = AuthToken(token: string, expiresAt: int)

  /** The in-memory slot of the service together with the persisted copy
      in the browser's local storage. */
  datatype AuthState = AuthState(slot: Option<AuthToken>, stored: Option<AuthToken>)

  /** What the host identity subsystem hands to the `getAuthToken` callback:
      whether `chrome.runtime.lastError` is set, and the token, if any. */
  datatype IdentityReply = IdentityReply(lastError: bool, token: Option<string>)

  /** The result of `authenticate`: the new state and the boolean it resolves to. */
  datatype AuthStep = AuthStep(state: AuthState, success: bool)

  /** The result of `signOut`: the new state and the revocation request it
      issued, if any. `signOut` itself resolves to nothing. */
  datatype SignOutStep = SignOutStep(state: AuthState, revokeRequest: Option<string>)

  /** The strict expiry test: the token is still usable at `now`. */
  predicate Unexpired(t: AuthToken, now: int) {
    t.expiresAt > now
  }

  /** No token usable at `now`, neither in memory nor in storage. */
  predicate NoLiveToken(s: AuthState, now: int) {
    && (s.slot.Some? ==> !Unexpired(s.slot.value, now))
    && (s.stored.Some? ==> !Unexpired(s.stored.value, now))
  }

  /** `loadTokenFromStorage`, which is the whole of `initialize`: a stored
      token replaces the slot; an empty storage leaves the slot as it was. */
  function LoadTokenFromStorage(s: AuthState): (r: AuthState)
    ensures r.stored == s.stored
    ensures s.stored.Some? ==> r.slot == s.stored
    ensures s.stored.None? ==> r == s
  {
    if s.stored.Some? then s.(slot := s.stored) else s
  }

  /** `isAuthenticated`: reads only the in-memory slot, and holds exactly
      when it holds a token whose expiry is after `now`. An authenticated
      service was authenticated at every earlier instant too, and a token
      whose expiry is `now` no longer counts. */
  function IsAuthenticated(s: AuthState, now: int): (b: bool)
    ensures b ==> s.slot.Some? && forall t :: t <= now ==> Unexpired(s.slot.value, t)
    ensures s.slot.Some? && Unexpired(s.slot.value, now) ==> b
    ensures s.slot.Some? && s.slot.value.expiresAt == now ==> !b
  {
    s.slot.Some? && Unexpired(s.slot.value, now)
  }

  /** `getToken`: `null` when the slot is empty or `expiresAt <= now`,
      otherwise the stored token string unchanged. */
  function GetToken(s: AuthState, now: int): (r: Option<string>)
    ensures r.None? <==> !IsAuthenticated(s, now)
    ensures r.Some? ==> s.slot.Some? && r.value == s.slot.value.token
  {
    if s.slot.None? || s.slot.value.expiresAt <= now then None
    else Some(s.slot.value.token)
  }

  /** The identity reply carries a usable token: no error and a truthy string. */
  predicate Granted(reply: IdentityReply) {
    !reply.lastError && reply.token.Some? && reply.token.value != ""
  }

  /** `authenticate`: an error or a missing/empty token resolves to false with
      nothing changed. Otherwise the slot receives the token with an expiry one
      hour after `now` and is written to storage; `written` says whether the
      write took effect. The save promise resolves either way, so a granted
      token always resolves to true (the `.catch` branch is never reached). */
  function Authenticate(s: AuthState, now: int, reply: IdentityReply, written: bool): (r: AuthStep)
    ensures !Granted(reply) ==> r == AuthStep(s, false)
    ensures Granted(reply) ==>
      r.state.slot == Some(AuthToken(reply.token.value, now + TokenLifetimeMs))
    ensures Granted(reply) ==>
      r.state.stored == (if written then r.state.slot else s.stored)
    ensures r.success <==> Granted(reply)
  {
    if reply.lastError || reply.token.None? || reply.token.value == "" then
      AuthStep(s, false)
    else
      var slot := Some(AuthToken(reply.token.value, now + TokenLifetimeMs));
      var withSlot := s.(slot := slot);
      AuthStep(if written then withSlot.(stored := slot) else withSlot, true)
  }

  function RevokeUrl(token: string): (u: string)
    ensures StartsWith(u, RevokeEndpoint)
    ensures u[|RevokeEndpoint|..] == token
  {
    RevokeEndpoint + token
  }

  /** `signOut`: with an empty slot, nothing happens. Otherwise the slot is
      cleared before any I/O, the stored copy is removed (`removed` says
      whether the removal took effect; its promise resolves either way), and
      the revocation request is sent. A failed revocation is swallowed. */
  function SignOut(s: AuthState, removed: bool): (r: SignOutStep)
    ensures s.slot.None? ==> r == SignOutStep(s, None)
    ensures r.state.slot.None?
    ensures s.slot.Some? ==> r.state.stored == (if removed then None else s.stored)
    ensures r.revokeRequest.Some? <==> s.slot.Some?
    ensures r.revokeRequest.Some? ==> r.revokeRequest.value == RevokeUrl(s.slot.value.token)
  {
    if s.slot.None? then SignOutStep(s, None)
    else
      var token := s.slot.value.token;
      var cleared := s.(slot := None);
      SignOutStep(if removed then cleared.(stored := None) else cleared, Some(RevokeUrl(token)))
  }

  /** The expiry test is strict: a token whose expiry equals `now` is already unusable. */
  lemma ExpiryIsStrict(s: AuthState, now: int)
    requires s.slot.Some? && s.slot.value.expiresAt == now
    ensures !IsAuthenticated(s, now) && GetToken(s, now).None?
  {
  }

  /** Once unusable, a token stays unusable as time advances. */
  lemma ExpiryIsMonotone(s: AuthState, t: int, t': int)
    requires t <= t'
    requires !IsAuthenticated(s, t)
    ensures !IsAuthenticated(s, t') && GetToken(s, t').None?
  {
  }

  /** A successful `authenticate` authenticates for exactly the next hour,
      whether or not its storage write took effect. */
  lemma AuthenticateWindow(s: AuthState, now: int, reply: IdentityReply, written: bool, t: int)
    requires Authenticate(s, now, reply, written).success
    ensures IsAuthenticated(Authenticate(s, now, reply, written).state, t)
        <==> t < now + TokenLifetimeMs
    ensures now <= t < now + TokenLifetimeMs ==>
      GetToken(Authenticate(s, now, reply, written).state, t) == reply.token
  {
  }

  /** When the storage write of a granted `authenticate` took effect, slot and
      storage agree, so a reload changes nothing. */
  lemma AuthenticateThenLoad(s: AuthState, now: int, reply: IdentityReply)
    requires Granted(reply)
    ensures LoadTokenFromStorage(Authenticate(s, now, reply, true).state)
         == Authenticate(s, now, reply, true).state
  {
  }

  /** When the storage write silently failed, `authenticate` still resolves
      to true, but a later reload puts the older stored token back in the slot. */
  lemma AuthenticateUnwrittenThenLoad(s: AuthState, now: int, reply: IdentityReply)
    requires Granted(reply) && s.stored.Some?
    ensures Authenticate(s, now, reply, false).success
    ensures LoadTokenFromStorage(Authenticate(s, now, reply, false).state).slot == s.stored
  {
  }

  /** Sign-out always leaves the service unauthenticated, whatever storage
      and the network do; when the stored copy was removed, a reload
      afterwards restores nothing. */
  lemma SignOutThenLoad(s: AuthState, removed: bool, now: int)
    requires s.slot.Some?
    ensures !IsAuthenticated(SignOut(s, removed).state, now)
    ensures removed ==> !IsAuthenticated(LoadTokenFromStorage(SignOut(s, removed).state), now)
  {
  }

  /** When the removal silently failed and the stored copy is still usable,
      the revocation request is sent anyway and a reload authenticates the
      service again with the stored token. */
  lemma SignOutUnremovedThenLoad(s: AuthState, now: int)
    requires s.slot.Some? && s.stored.Some? && Unexpired(s.stored.value, now)
    ensures SignOut(s, false).revokeRequest.Some?
    ensures IsAuthenticated(LoadTokenFromStorage(SignOut(s, false).state), now)
  {
  }

  /** The checks read only the in-memory slot: another surface removing the
      stored token does not change their answer. */
  lemma StorageNotReread(s: AuthState, now: int)
    ensures IsAuthenticated(s.(stored := None), now) == IsAuthenticated(s, now)
    ensures GetToken(s.(stored := None), now) == GetToken(s, now)
  {
  }

  /** The steps the service can take other than `authenticate`. */
  datatype Event = Load | SignOutEvent(removed: bool)

  function Step(s: AuthState, e: Event): AuthState {
    match e
    case Load => LoadTokenFromStorage(s)
    case SignOutEvent(ok) => SignOut(s, ok).state
  }

  function Replay(s: AuthState, events: seq<Event>): AuthState
    decreases |events|
  {
    if |events| == 0 then s else Replay(Step(s, events[0]), events[1..])
  }

  /** One step without `authenticate` never brings a usable token into being. */
  lemma StepKeepsNoLiveToken(s: AuthState, e: Event, t: int)
    requires NoLiveToken(s, t)
    ensures NoLiveToken(Step(s, e), t)
  {
  }

  /** When neither the slot nor storage holds a token usable at `t`, no run of
      loads and sign-outs makes the service authenticated at `t` or later. */
  lemma {:induction false} ExpiredStaysExpired(s: AuthState, events: seq<Event>, t: int, t': int)
    requires NoLiveToken(s, t)
    requires t <= t'
    ensures !IsAuthenticated(Replay(s, events), t')
    ensures GetToken(Replay(s, events), t').None?
    decreases |events|
  {
    if |events| == 0 {
    } else {
      StepKeepsNoLiveToken(s, events[0], t);
      ExpiredStaysExpired(Step(s, events[0]), events[1..], t, t');
    }
  }
}

=== FILE: drive_service.dfy ===
/** The Google Drive file service: a token gate in front of every request,
    the filter strings it sends, and the normalisation of raw Drive API
    records into `DriveFile` values. The HTTP exchange is an explicit
    parameter: the outcome the request would have had, if it is issued. */
module DriveService {
  import opened Common
  import opened Decimal
  import DriveAuth

  /** The MIME type Drive uses to mark a folder. */
  const FolderMime: string := "application/vnd.google-apps.folder"
  /** The folder id that means "top level"; it is never recorded as a parent. */
  const RootFolder: string := "root"
  const ListFields: string := "files(id,name,mimeType,size,modifiedTime,iconLink)"
  const FileFields: string := "id,name,mimeType,size,modifiedTime,iconLink,parents"
  const SearchFields: string := "files(id,name,mimeType,size,modifiedTime,iconLink,parents)"
  const PageSize: nat := 100

  /** The fixed text around the argument of the listing filter. */
  const ListQueryTail: string := "' in parents and trashed = false"
  /** The fixed text around the argument of the search filter. */
  const SearchQueryHead: string := "name contains '"
  const SearchQueryTail: string := "' and trashed = false"

  const NotAuthenticatedMessage: string := "Not authenticated"
  /** `getFile` spells its message with a capital A. */
  const NotAuthenticatedFileMessage: string := "Not Authenticated"
  const ListFailurePrefix: string := "Failed to fetch files: "
  const FileFailurePrefix: string := "Failed to fetch file: "
  const SearchFailurePrefix: string := "Failed to fetch files from search query: "

  /** The `size` of a raw record: absent, a JSON number, or a JSON string. */
  datatype RawSize = SizeAbsent | SizeNumber(n: int) | SizeString(s: string)

  /** A file record as the Drive API returns it. */
  datatype RawFile = RawFile(
    id: string,
    name: string,
    mimeType: string,
    size: RawSize,
    modifiedTime: Option<string>,
    iconLink: Option<string>,
    parents: Option<seq<string>>)

  /** The `size` of a normalised record: absent, a number, NaN (what `parseInt`
      yields for a string without leading digits), or a string `getFile`
      passes through unconverted. */
  datatype Size = NoSize | Bytes(n: int) | NaN | Unconverted(s: string)

  /** The normalised record handed to the UI. */
  datatype DriveFile = DriveFile(
    id: string,
    name: string,
    mimeType: string,
    size: Size,
    modifiedTime: Option<string>,
    iconLink: Option<string>,
    isFolder: bool,
    parentId: Option<string>)

  /** The request issued, before URL encoding. Every request carries `bearer`
      in its `Authorization: Bearer` header. */
  datatype Request =
    | ListRequest(q: string, fields: string, pageSize: nat, bearer: string)
    | FileRequest(fileId: string, fields: string, bearer: string)

  /** An HTTP response whose decoded JSON body is `json` and whose text body is `text`. */
  datatype Response<T> = Response(status: nat, statusText: string, text: string, json: T) {
    /** `response.ok`: the status is in the range 200-299. */
    predicate Ok() {
      200 <= status <= 299
    }
  }

  /** What `fetch` does: reject, or resolve with a response. */
  datatype Fetch<T> = Rejected(reason: string) | Fetched(response: Response<T>)

  /** The errors the service throws, each with the message of the thrown `Error`. */
  datatype DriveError =
    | NotAuthenticated(message: string)
    | RequestFailed(message: string)
    | NetworkError(reason: string)

  /** One call of the service: the request it issued, if any, and what it returned. */
  datatype Call<T> = Call(request: Option<Request>, result: Result<T, DriveError>)

  // ----- Derived-field policies -----

  /** `isFolder` is a function of `mimeType` alone. */
  predicate FolderFlagDerived(d: DriveFile) {
    d.isFolder <==> d.mimeType == FolderMime
  }

  /** The fields copied verbatim from the raw record. */
  predicate Mirrors(f: RawFile, d: DriveFile) {
    d.id == f.id && d.name == f.name && d.mimeType == f.mimeType
    && d.modifiedTime == f.modifiedTime && d.iconLink == f.iconLink
  }

  /** The size conversion of `listFiles` and `searchFiles`, stated by cases:
      a number passes through, a string of digits becomes its value, and a
      string that does not start with a digit becomes NaN. */
  predicate SizeParsed(raw: RawSize, sz: Size) {
    match raw
    case SizeAbsent => sz == NoSize
    case SizeNumber(n) => sz == Bytes(n)
    case SizeString(s) =>
      && (sz.Bytes? || sz.NaN?)
      && (|s| > 0 && AllDigits(s) ==> sz == Bytes(ValueOf(s)))
      && (sz.NaN? <==> |s| == 0 || !IsDigit(s[0]))
  }

  /** The size handling of `getFile`: whatever came in goes out, unconverted. */
  predicate SizeCopied(raw: RawSize, sz: Size) {
    match raw
    case SizeAbsent => sz == NoSize
    case SizeNumber(n) => sz == Bytes(n)
    case SizeString(s) => sz == Unconverted(s)
  }

  /** `typeof size === "string" ? parseInt(size, 10) : size` */
  function ParsedSize(raw: RawSize): (sz: Size)
    ensures SizeParsed(raw, sz)
  {
    match raw
    case SizeAbsent => NoSize
    case SizeNumber(n) => Bytes(n)
    case SizeString(s) =>
      DigitStringParses(s);
      match ParseInt(s)
      case None => NaN
      case Some(n) => Bytes(n)
  }

  lemma DigitStringParses(s: string)
    ensures |s| > 0 && AllDigits(s) ==> ParseInt(s) == Some(ValueOf(s))
  {
    if |s| > 0 && AllDigits(s) {
      ParseAllDigits(s);
    }
  }

  /** `size` copied as it came. */
  function CopiedSize(raw: RawSize): (sz: Size)
    ensures SizeCopied(raw, sz)
  {
    match raw
    case SizeAbsent => NoSize
    case SizeNumber(n) => Bytes(n)
    case SizeString(s) => Unconverted(s)
  }

  /** `parents?.[0]`: the first parent, absent when the list is missing or empty. */
  function FirstParent(parents: Option<seq<string>>): (p: Option<string>)
    ensures p.Some? <==> parents.Some? && |parents.value| > 0
    ensures p.Some? ==> p.value == parents.value[0]
  {
    if parents.Some? && |parents.value| > 0 then Some(parents.value[0]) else None
  }

  /** The parent recorded by `listFiles`: the requested folder, unless it is the root. */
  function ListParent(folderId: string): (p: Option<string>)
    ensures p.None? <==> folderId == RootFolder
    ensures p.Some? ==> p.value == folderId
  {
    if folderId != RootFolder then Some(folderId) else None
  }

  /** The one place a `DriveFile` is built: copied fields, the given size and
      parent, and the folder flag derived from the MIME type. */
  function Normalise(f: RawFile, size: Size, parentId: Option<string>): (d: DriveFile)
    ensures Mirrors(f, d) && FolderFlagDerived(d)
    ensures d.size == size && d.parentId == parentId
  {
    DriveFile(f.id, f.name, f.mimeType, size, f.modifiedTime, f.iconLink,
              f.mimeType == FolderMime, parentId)
  }

  function FromListEntry(f: RawFile, folderId: string): DriveFile {
    Normalise(f, ParsedSize(f.size), ListParent(folderId))
  }

  function FromSearchEntry(f: RawFile): DriveFile {
    Normalise(f, ParsedSize(f.size), FirstParent(f.parents))
  }

  function FromFileResponse(f: RawFile): DriveFile {
    Normalise(f, CopiedSize(f.size), FirstParent(f.parents))
  }

  /** `files.map(...)` in `listFiles`, entry by entry and in order. */
  function MapListEntries(files: seq<RawFile>, folderId: string): (r: seq<DriveFile>)
    ensures |r| == |files|
    ensures forall i :: 0 <= i < |files| ==> r[i] == FromListEntry(files[i], folderId)
  {
    if |files| == 0 then []
    else [FromListEntry(files[0], folderId)] + MapListEntries(files[1..], folderId)
  }

  /** `files.map(...)` in `searchFiles`, entry by entry and in order. */
  function MapSearchEntries(files: seq<RawFile>): (r: seq<DriveFile>)
    ensures |r| == |files|
    ensures forall i :: 0 <= i < |files| ==> r[i] == FromSearchEntry(files[i])
  {
    if |files| == 0 then []
    else [FromSearchEntry(files[0])] + MapSearchEntries(files[1..])
  }

  /** What a successful `listFiles` promises of its records, against the raw entries. */
  predicate ListedFrom(files: seq<RawFile>, r: seq<DriveFile>, folderId: string) {
    && |r| == |files|
    && forall i :: 0 <= i < |r| ==>
         && Mirrors(files[i], r[i])
         && FolderFlagDerived(r[i])
         && SizeParsed(files[i].size, r[i].size)
         && r[i].parentId == ListParent(folderId)
  }

  /** What a successful `searchFiles` promises of its records, against the raw entries. */
  predicate SearchedFrom(files: seq<RawFile>, r: seq<DriveFile>) {
    && |r| == |files|
    && forall i :: 0 <= i < |r| ==>
         && Mirrors(files[i], r[i])
         && FolderFlagDerived(r[i])
         && SizeParsed(files[i].size, r[i].size)
         && r[i].parentId == FirstParent(files[i].parents)
  }

  // ----- Filter strings -----

  /** `'${folderId}' in parents and trashed = false`, the id inserted unescaped. */
  function ListQuery(folderId: string): (q: string)
    ensures |q| == 1 + |folderId| + |ListQueryTail|
    ensures q[..1] == "'"
    ensures q[1..1 + |folderId|] == folderId
    ensures q[1 + |folderId|..] == ListQueryTail
  {
    "'" + folderId + ListQueryTail
  }

  /** `name contains '${query}' and trashed = false`, the query inserted unescaped. */
  function SearchQuery(query: string): (q: string)
    ensures |q| == |SearchQueryHead| + |query| + |SearchQueryTail|
    ensures q[..|SearchQueryHead|] == SearchQueryHead
    ensures q[|SearchQueryHead|..|SearchQueryHead| + |query|] == query
    ensures q[|SearchQueryHead| + |query|..] == SearchQueryTail
  {
    SearchQueryHead + query + SearchQueryTail
  }

  // ----- Token gate -----

  /** `if (!token) throw`: a token passes only when present and non-empty. */
  predicate Usable(token: Option<string>) {
    token.Some? && token.value != ""
  }

  /** `checkAuthStatus`: forwards `isAuthenticated`. */
  function CheckAuthStatus(auth: DriveAuth.AuthState, now: int): (b: bool)
    ensures b <==> DriveAuth.GetToken(auth, now).Some?
  {
    DriveAuth.IsAuthenticated(auth, now)
  }

  // ----- Operations -----

  /** The folder `listFiles` lists: its argument, `"root"` when omitted. */
  function EffectiveFolder(folderArg: Option<string>): (folderId: string)
    ensures folderArg.None? ==> folderId == RootFolder
    ensures folderArg.Some? ==> folderId == folderArg.value
  {
    folderArg.GetOr(RootFolder)
  }

  /** The message `listFiles` throws on a non-ok response: the fixed prefix,
      the status in decimal, then the status text and the response text.
      Reading the number after the prefix gives back the status. */
  function ListFailureMessage(resp: Response<seq<RawFile>>): (m: string)
    ensures StartsWith(m, ListFailurePrefix)
    ensures ParseInt(m[|ListFailurePrefix|..]) == Some(resp.status)
    ensures |ListFailurePrefix| + |Show(resp.status)| <= |m|
    ensures m[|ListFailurePrefix| + |Show(resp.status)|..]
         == " " + resp.statusText + " - " + resp.text
  {
    var rest := " " + resp.statusText + " - " + resp.text;
    var m := ListFailurePrefix + (Show(resp.status) + rest);
    assert m[|ListFailurePrefix|..] == Show(resp.status) + rest;
    assert m[|ListFailurePrefix| + |Show(resp.status)|..] == rest;
    ParseShow(resp.status, rest);
    m
  }

  /** `listFiles(folderId = "root")`. The result of `isAuthenticated` it
      computes first is never used, so only `getToken` decides the gate. */
  function ListFiles(auth: DriveAuth.AuthState, now: int, folderArg: Option<string>,
                     fetched: Fetch<seq<RawFile>>): (c: Call<seq<DriveFile>>)
    ensures !Usable(DriveAuth.GetToken(auth, now)) ==>
      c == Call(None, Failure(NotAuthenticated(NotAuthenticatedMessage)))
    ensures Usable(DriveAuth.GetToken(auth, now)) ==>
      c.request == Some(ListRequest(ListQuery(EffectiveFolder(folderArg)), ListFields,
                                    PageSize, DriveAuth.GetToken(auth, now).value))
    ensures c.result.Success? <==>
      Usable(DriveAuth.GetToken(auth, now)) && fetched.Fetched? && fetched.response.Ok()
    ensures c.result.Success? ==>
      ListedFrom(fetched.response.json, c.result.value, EffectiveFolder(folderArg))
    ensures c.request.Some? && fetched.Fetched? && !fetched.response.Ok() ==>
      c.result == Failure(RequestFailed(ListFailureMessage(fetched.response)))
    ensures c.request.Some? && fetched.Rejected? ==>
      c.result == Failure(NetworkError(fetched.reason))
  {
    var folderId := EffectiveFolder(folderArg);
    var token := DriveAuth.GetToken(auth, now);
    if token.None? || token.value == "" then
      Call(None, Failure(NotAuthenticated(NotAuthenticatedMessage)))
    else
      var req := ListRequest(ListQuery(folderId), ListFields, PageSize, token.value);
      match fetched
      case Rejected(e) => Call(Some(req), Failure(NetworkError(e)))
      case Fetched(resp) =>
        if !resp.Ok() then Call(Some(req), Failure(RequestFailed(ListFailureMessage(resp))))
        else Call(Some(req), Success(MapListEntries(resp.json, folderId)))
  }

  /** `getFile(fileId)`: one record, `parentId` its first parent, `size` unconverted. */
  function GetFile(auth: DriveAuth.AuthState, now: int, fileId: string,
                   fetched: Fetch<RawFile>): (c: Call<DriveFile>)
    ensures !Usable(DriveAuth.GetToken(auth, now)) ==>
      c == Call(None, Failure(NotAuthenticated(NotAuthenticatedFileMessage)))
    ensures Usable(DriveAuth.GetToken(auth, now)) ==>
      c.request == Some(FileRequest(fileId, FileFields, DriveAuth.GetToken(auth, now).value))
    ensures c.result.Success? <==>
      Usable(DriveAuth.GetToken(auth, now)) && fetched.Fetched? && fetched.response.Ok()
    ensures c.result.Success? ==>
      var f := fetched.response.json;
      && Mirrors(f, c.result.value)
      && FolderFlagDerived(c.result.value)
      && SizeCopied(f.size, c.result.value.size)
      && c.result.value.parentId == FirstParent(f.parents)
    ensures c.request.Some? && fetched.Fetched? && !fetched.response.Ok() ==>
      c.result == Failure(RequestFailed(FileFailurePrefix + fetched.response.statusText))
    ensures c.request.Some? && fetched.Rejected? ==>
      c.result == Failure(NetworkError(fetched.reason))
  {
    var token := DriveAuth.GetToken(auth, now);
    if token.None? || token.value == "" then
      Call(None, Failure(NotAuthenticated(NotAuthenticatedFileMessage)))
    else
      var req := FileRequest(fileId, FileFields, token.value);
      match fetched
      case Rejected(e) => Call(Some(req), Failure(NetworkError(e)))
      case Fetched(resp) =>
        if !resp.Ok() then Call(Some(req), Failure(RequestFailed(FileFailurePrefix + resp.statusText)))
        else Call(Some(req), Success(FromFileResponse(resp.json)))
  }

  /** `getFile` as evidently intended: the size converted as `listFiles` and
      `searchFiles` convert it, so that `size` is always a number (or NaN), as
      the `DriveFile` interface declares. */
  function GetFileTyped(auth: DriveAuth.AuthState, now: int, fileId: string,
                        fetched: Fetch<RawFile>): (c: Call<DriveFile>)
    ensures c.request == GetFile(auth, now, fileId, fetched).request
    ensures c.result.Success? <==> GetFile(auth, now, fileId, fetched).result.Success?
    ensures c.result.Failure? ==> c.result == GetFile(auth, now, fileId, fetched).result
    ensures c.result.Success? ==>
      var f := fetched.response.json;
      && c.result.value == FromSearchEntry(f)
      && SizeParsed(f.size, c.result.value.size)
      && !c.result.value.size.Unconverted?
  {
    var c := GetFile(auth, now, fileId, fetched);
    if c.result.Success? then Call(c.request, Success(FromSearchEntry(fetched.response.json)))
    else c
  }

  /** `searchFiles(query)`: records whose name contains `query`, each with its first parent. */
  function SearchFiles(auth: DriveAuth.AuthState, now: int, query: string,
                       fetched: Fetch<seq<RawFile>>): (c: Call<seq<DriveFile>>)
    ensures !Usable(DriveAuth.GetToken(auth, now)) ==>
      c == Call(None, Failure(NotAuthenticated(NotAuthenticatedMessage)))
    ensures Usable(DriveAuth.GetToken(auth, now)) ==>
      c.request == Some(ListRequest(SearchQuery(query), SearchFields, PageSize,
                                    DriveAuth.GetToken(auth, now).value))
    ensures c.result.Success? <==>
      Usable(DriveAuth.GetToken(auth, now)) && fetched.Fetched? && fetched.response.Ok()
    ensures c.result.Success? ==> SearchedFrom(fetched.response.json, c.result.value)
    ensures c.request.Some? && fetched.Fetched? && !fetched.response.Ok() ==>
      c.result == Failure(RequestFailed(SearchFailurePrefix + fetched.response.statusText))
    ensures c.request.Some? && fetched.Rejected? ==>
      c.result == Failure(NetworkError(fetched.reason))
  {
    var token := DriveAuth.GetToken(auth, now);
    if token.None? || token.value == "" then
      Call(None, Failure(NotAuthenticated(NotAuthenticatedMessage)))
    else
      var req := ListRequest(SearchQuery(query), SearchFields, PageSize, token.value);
      match fetched
      case Rejected(e) => Call(Some(req), Failure(NetworkError(e)))
      case Fetched(resp) =>
        if !resp.Ok() then Call(Some(req), Failure(RequestFailed(SearchFailurePrefix + resp.statusText)))
        else Call(Some(req), Success(MapSearchEntries(resp.json)))
  }

  // ----- Properties relating several calls -----

  /** Without a usable token no operation issues a request, whatever the
      network would have answered. */
  lemma GateBeforeRequest(auth: DriveAuth.AuthState, now: int, folderArg: Option<string>,
                          fileId: string, query: string,
                          l: Fetch<seq<RawFile>>, g: Fetch<RawFile>, s: Fetch<seq<RawFile>>)
    requires !DriveAuth.IsAuthenticated(auth, now)
    ensures ListFiles(auth, now, folderArg, l).request.None?
    ensures GetFile(auth, now, fileId, g).request.None?
    ensures SearchFiles(auth, now, query, s).request.None?
    ensures ListFiles(auth, now, folderArg, l).result.error.NotAuthenticated?
    ensures GetFile(auth, now, fileId, g).result.error.NotAuthenticated?
    ensures SearchFiles(auth, now, query, s).result.error.NotAuthenticated?
  {
  }

  /** An unexpired empty token in the slot (it can only get there by a load
      from storage, since `authenticate` refuses "") makes `isAuthenticated`
      true, yet every operation still refuses: the gate is the truthiness of
      `getToken`. */
  lemma EmptyTokenRefused(auth: DriveAuth.AuthState, now: int, folderArg: Option<string>,
                          fileId: string, query: string,
                          l: Fetch<seq<RawFile>>, g: Fetch<RawFile>, s: Fetch<seq<RawFile>>)
    requires auth.slot.Some? && auth.slot.value.token == ""
    requires DriveAuth.Unexpired(auth.slot.value, now)
    ensures DriveAuth.IsAuthenticated(auth, now)
    ensures ListFiles(auth, now, folderArg, l).result == Failure(NotAuthenticated(NotAuthenticatedMessage))
    ensures GetFile(auth, now, fileId, g).result == Failure(NotAuthenticated(NotAuthenticatedFileMessage))
    ensures SearchFiles(auth, now, query, s).result == Failure(NotAuthenticated(NotAuthenticatedMessage))
  {
  }

  /** A failed listing reports the upstream status: reading the number that
      follows the message's fixed prefix gives back the exact status code. */
  lemma ListFailureCarriesStatus(auth: DriveAuth.AuthState, now: int, folderArg: Option<string>,
                                 resp: Response<seq<RawFile>>)
    requires Usable(DriveAuth.GetToken(auth, now))
    requires !resp.Ok()
    ensures var c := ListFiles(auth, now, folderArg, Fetched(resp));
      && c.result.Failure? && c.result.error.RequestFailed?
      && StartsWith(c.result.error.message, ListFailurePrefix)
      && ParseInt(c.result.error.message[|ListFailurePrefix|..]) == Some(resp.status)
  {
    var rest := " " + resp.statusText + " - " + resp.text;
    var m := ListFailureMessage(resp);
    assert m == ListFailurePrefix + (Show(resp.status) + rest);
    assert m[|ListFailurePrefix|..] == Show(resp.status) + rest;
    ParseShow(resp.status, rest);
  }

  /** A listed record is a folder exactly when its raw entry carried the folder MIME type. */
  lemma ListFolderFlag(auth: DriveAuth.AuthState, now: int, folderArg: Option<string>,
                       resp: Response<seq<RawFile>>, i: nat)
    requires ListFiles(auth, now, folderArg, Fetched(resp)).result.Success?
    requires i < |resp.json|
    ensures var r := ListFiles(auth, now, folderArg, Fetched(resp)).result.value;
      i < |r| && (r[i].isFolder <==> resp.json[i].mimeType == FolderMime)
  {
  }

  /** The Drive API sends `size` as a string. For such a record `getFile`
      returns the string itself, not a number, while `searchFiles` returns the
      number; the typed variant agrees with `searchFiles`. */
  lemma GetFileSizeUnconverted(auth: DriveAuth.AuthState, now: int)
    requires Usable(DriveAuth.GetToken(auth, now))
    ensures
      var f := RawFile("F", "a.txt", "text/plain", SizeString("2048"), None, None, None);
      var got := GetFile(auth, now, "F", Fetched(Response(200, "OK", "", f)));
      var typed := GetFileTyped(auth, now, "F", Fetched(Response(200, "OK", "", f)));
      var found := SearchFiles(auth, now, "a", Fetched(Response(200, "OK", "", [f])));
      && got.result.Success? && got.result.value.size == Unconverted("2048")
      && found.result.Success? && found.result.value[0].size == Bytes(2048)
      && typed.result.Success? && typed.result.value.size == Bytes(2048)
  {
    assert AllDigits("2048");
    assert ValueOf("2048") == 2048 by {
      assert "2048"[..3] == "204" && "204"[..2] == "20" && "20"[..1] == "2";
    }
  }

  /** The raw filter strings determine their argument: different folders or
      queries never produce the same filter. */
  lemma {:induction false} QueriesDetermineArgument(a: string, b: string)
    ensures ListQuery(a) == ListQuery(b) ==> a == b
    ensures SearchQuery(a) == SearchQuery(b) ==> a == b
  {
    if ListQuery(a) == ListQuery(b) {
      assert |a| == |b|;
      assert a == ListQuery(a)[1..1 + |a|] == ListQuery(b)[1..1 + |b|] == b;
    }
    if SearchQuery(a) == SearchQuery(b) {
      assert |a| == |b|;
      var h := |SearchQueryHead|;
      assert a == SearchQuery(a)[h..h + |a|] == SearchQuery(b)[h..h + |b|] == b;
    }
  }

  /** Nothing is escaped: for a query `a' or c` the filter reads as the
      complete clause `name contains 'a'`, then ` or `, then `c` followed by
      the fixed tail, so the rest of the query becomes filter syntax. */
  lemma SearchQueryNotEscaped(a: string, c: string)
    ensures SearchQuery(a + "' or " + c)
         == (SearchQueryHead + a + "'") + " or " + (c + SearchQueryTail)
  {
    assert "' or " == "'" + " or ";
  }

  /** The scenario of a root folder holding the folder F1 and the file doc.pdf:
      listing the root gives two records in order with the right folder flags
      and no parent, and fetching F1 recovers "root" as its parent. */
  lemma RootScenario(auth: DriveAuth.AuthState, now: int)
    requires Usable(DriveAuth.GetToken(auth, now))
    ensures
      var f1 := RawFile("F1", "F1", FolderMime, SizeAbsent, None, None, Some(["root"]));
      var doc := RawFile("D1", "doc.pdf", "application/pdf", SizeString("2048"), None, None, None);
      var listed := ListFiles(auth, now, None, Fetched(Response(200, "OK", "", [f1, doc])));
      var got := GetFile(auth, now, "F1", Fetched(Response(200, "OK", "", f1)));
      && listed.result.Success? && |listed.result.value| == 2
      && listed.result.value[0].isFolder && !listed.result.value[1].isFolder
      && listed.result.value[0].parentId.None? && listed.result.value[1].parentId.None?
      && listed.result.value[1].size == Bytes(2048)
      && got.result.Success? && got.result.value.parentId == Some("root")
  {
    var doc := RawFile("D1", "doc.pdf", "application/pdf", SizeString("2048"), None, None, None);
    assert AllDigits("2048");
    assert ValueOf("2048") == 2048 by {
      assert "2048"[..3] == "204" && "204"[..2] == "20" && "20"[..1] == "2";
    }
  }
}

=== FILE: file_preview.dfy ===
/** The preview dialog: how a file's content is fetched (an embeddable viewer
    URL or a downloaded blob), which branch renders it, and the dialog's
    loading/error/close state. The two service calls that produce URLs are
    not modelled; their outcome is a parameter. */
module FilePreview {
  import opened Common
  import DriveService

  const PdfMime: string := "application/pdf"
  /** Prefix shared by the MIME types of Google-native documents. */
  const GoogleAppsPrefix: string := "application/vnd.google-apps."
  const ImagePrefix: string := "image/"
  const VideoPrefix: string := "video/"
  const AudioPrefix: string := "audio/"
  const TextPrefix: string := "text/"
  const BlobScheme: string := "blob:"
  const PreviewError: string := "Failed to load preview"

  /** The two ways `fetchPreviewUrl` obtains content. */
  datatype FetchPath = ViewerUrl | BlobUrl

  /** The branches of `renderFileContent`, in the order they are tried. */
  datatype RenderBranch = ImageBranch | IframeBranch | VideoBranch | AudioBranch | TextBranch | Unsupported

  /** The component's state variables. */
  datatype PreviewState = PreviewState(
    isLoading: bool,
    isOpen: bool,
    fileUrl: string,
    error: string,
    viewerUrl: string)

  /** What the awaited service call did: resolved with a URL, or threw. */
  datatype FetchOutcome = Resolved(url: string) | Threw

  /** PDFs and Google-native documents are shown through a viewer URL. */
  predicate ViewerType(mime: string) {
    mime == PdfMime || StartsWith(mime, GoogleAppsPrefix)
  }

  /** The fetch-path choice of `fetchPreviewUrl`. */
  function ChooseFetchPath(mime: string): (p: FetchPath)
    ensures p == ViewerUrl <==> ViewerType(mime)
  {
    if mime == PdfMime || StartsWith(mime, GoogleAppsPrefix) then ViewerUrl else BlobUrl
  }

  /** `renderFileContent`: the first matching test wins. With no file every
      optional-chained test is falsy, so the last branch is taken. */
  function ChooseRenderBranch(mime: Option<string>): (b: RenderBranch)
    ensures mime.None? ==> b == Unsupported
  {
    if mime.None? then Unsupported
    else
      var m := mime.value;
      if StartsWith(m, ImagePrefix) then ImageBranch
      else if m == PdfMime || StartsWith(m, GoogleAppsPrefix) then IframeBranch
      else if StartsWith(m, VideoPrefix) then VideoBranch
      else if StartsWith(m, AudioPrefix) then AudioBranch
      else if StartsWith(m, TextPrefix) then TextBranch
      else Unsupported
  }

  /** The first-match order, branch by branch: each branch is chosen exactly
      when its own test holds and every earlier test fails. */
  lemma RenderIsFirstMatch(m: string)
    ensures ChooseRenderBranch(Some(m)) == ImageBranch <==> StartsWith(m, ImagePrefix)
    ensures ChooseRenderBranch(Some(m)) == IframeBranch <==>
      !StartsWith(m, ImagePrefix) && ViewerType(m)
    ensures ChooseRenderBranch(Some(m)) == VideoBranch <==>
      !StartsWith(m, ImagePrefix) && !ViewerType(m) && StartsWith(m, VideoPrefix)
    ensures ChooseRenderBranch(Some(m)) == AudioBranch <==>
      !StartsWith(m, ImagePrefix) && !ViewerType(m) && !StartsWith(m, VideoPrefix)
      && StartsWith(m, AudioPrefix)
    ensures ChooseRenderBranch(Some(m)) == TextBranch <==>
      !StartsWith(m, ImagePrefix) && !ViewerType(m) && !StartsWith(m, VideoPrefix)
      && !StartsWith(m, AudioPrefix) && StartsWith(m, TextPrefix)
  {
  }

  /** A viewer type never starts with "image/". */
  lemma ViewerTypeIsNotImage(m: string)
    requires ViewerType(m)
    ensures !StartsWith(m, ImagePrefix)
  {
    if m == PdfMime {
      PrefixesClash(m, PdfMime, ImagePrefix, 0);
      assert StartsWith(m, PdfMime);
    } else {
      PrefixesClash(m, GoogleAppsPrefix, ImagePrefix, 0);
    }
  }

  /** The two classifiers agree: a type is fetched by viewer URL exactly when
      it is rendered by the iframe branch, so never by the image branch. */
  lemma {:induction false} ViewerPathMeansIframe(m: string)
    ensures ChooseFetchPath(m) == ViewerUrl <==> ChooseRenderBranch(Some(m)) == IframeBranch
    ensures ChooseFetchPath(m) == ViewerUrl ==> ChooseRenderBranch(Some(m)) != ImageBranch
  {
    if ViewerType(m) {
      ViewerTypeIsNotImage(m);
    }
  }

  /** Media and text types are always downloaded as a blob. */
  lemma {:induction false} MediaTypesUseBlob(m: string)
    requires StartsWith(m, ImagePrefix) || StartsWith(m, VideoPrefix)
          || StartsWith(m, AudioPrefix) || StartsWith(m, TextPrefix)
    ensures ChooseFetchPath(m) == BlobUrl
  {
    if ViewerType(m) {
      var g := GoogleAppsPrefix;
      if m == PdfMime {
        assert StartsWith(m, PdfMime);
        PrefixesClash(m, PdfMime, ImagePrefix, 0);
        PrefixesClash(m, PdfMime, VideoPrefix, 0);
        PrefixesClash(m, PdfMime, AudioPrefix, 1);
        PrefixesClash(m, PdfMime, TextPrefix, 0);
      } else {
        PrefixesClash(m, g, ImagePrefix, 0);
        PrefixesClash(m, g, VideoPrefix, 0);
        PrefixesClash(m, g, AudioPrefix, 1);
        PrefixesClash(m, g, TextPrefix, 0);
      }
    }
  }

  /** The state the component starts in: closed, not loading, no error and
      no URL of either kind, so nothing to revoke. */
  function Initial(): (r: PreviewState)
    ensures !r.isOpen && !r.isLoading && r.error == ""
    ensures r.fileUrl == "" && r.viewerUrl == "" && !ShouldRevoke(r.fileUrl)
  {
    PreviewState(false, false, "", "", "")
  }

  /** `handleClose`: clears the error and the blob URL and closes the dialog.
      The viewer URL is left as it was. */
  function HandleClose(s: PreviewState): (r: PreviewState)
    ensures !r.isOpen && !r.isLoading && r.error == "" && r.fileUrl == ""
    ensures r == Initial().(viewerUrl := s.viewerUrl)
  {
    s.(error := "", fileUrl := "", isLoading := false, isOpen := false)
  }

  /** `fetchPreviewUrl` as one atomic step: with a file, the path chosen by
      its MIME type is fetched; success stores the URL in the slot for that
      path, a throw sets the error. Loading ends either way. Nothing clears an
      earlier error on success. */
  function FetchPreview(s: PreviewState, file: Option<DriveService.DriveFile>,
                        outcome: FetchOutcome): (r: PreviewState)
    ensures !r.isLoading && r.isOpen == s.isOpen
    ensures file.None? ==> r == s.(isLoading := false)
    ensures file.Some? && outcome.Threw? ==>
      r == s.(isLoading := false, error := PreviewError)
    ensures file.Some? && outcome.Resolved? && ViewerType(file.value.mimeType) ==>
      r.viewerUrl == outcome.url && r.fileUrl == s.fileUrl && r.error == s.error
    ensures file.Some? && outcome.Resolved? && !ViewerType(file.value.mimeType) ==>
      r.fileUrl == outcome.url && r.viewerUrl == s.viewerUrl && r.error == s.error
  {
    var loading := s.(isLoading := true);
    if file.None? then loading.(isLoading := false)
    else match outcome
      case Threw => loading.(isLoading := false, error := PreviewError)
      case Resolved(url) =>
        var fetched := match ChooseFetchPath(file.value.mimeType)
          case ViewerUrl => loading.(viewerUrl := url)
          case BlobUrl => loading.(fileUrl := url);
        fetched.(isLoading := false)
  }

  /** The effect that runs when the `file` prop changes: a file opens the
      dialog and fetches its preview; no file leaves the state as it is. */
  function OnFileChange(s: PreviewState, file: Option<DriveService.DriveFile>,
                        outcome: FetchOutcome): (r: PreviewState)
    ensures file.None? ==> r == s
    ensures file.Some? ==> r.isOpen && !r.isLoading
  {
    if file.None? then s else FetchPreview(s.(isOpen := true), file, outcome)
  }

  /** The URL a render branch displays: the viewer URL in the iframe, the
      blob URL in the media and text branches, nothing when unsupported.
      The text branch prints the blob URL string itself, not the file's
      content. */
  function DisplayedUrl(s: PreviewState, b: RenderBranch): (u: Option<string>)
    ensures u.None? <==> b == Unsupported
    ensures b == IframeBranch ==> u == Some(s.viewerUrl)
    ensures b != IframeBranch && b != Unsupported ==> u == Some(s.fileUrl)
  {
    match b
    case IframeBranch => Some(s.viewerUrl)
    case Unsupported => None
    case _ => Some(s.fileUrl)
  }

  /** After a successful fetch, the branch that renders the file displays
      exactly the URL that was just fetched, whichever path fetched it. */
  lemma {:induction false} RenderShowsFetchedUrl(s: PreviewState, f: DriveService.DriveFile, url: string)
    requires ChooseRenderBranch(Some(f.mimeType)) != Unsupported
    ensures
      var r := OnFileChange(s, Some(f), Resolved(url));
      DisplayedUrl(r, ChooseRenderBranch(Some(f.mimeType))) == Some(url)
  {
    ViewerPathMeansIframe(f.mimeType);
  }

  /** A failed fetch shows the fixed error message and stops loading. */
  lemma FailedFetchShowsError(s: PreviewState, f: DriveService.DriveFile)
    ensures OnFileChange(s, Some(f), Threw).error == PreviewError
    ensures !OnFileChange(s, Some(f), Threw).isLoading
  {
  }

  /** The cleanup of the `fileUrl` effect revokes the URL only when it is a
      non-empty `blob:` URL. */
  function ShouldRevoke(fileUrl: string): (b: bool)
    ensures b <==> StartsWith(fileUrl, BlobScheme)
    ensures b ==> fileUrl != ""
  {
    fileUrl != "" && StartsWith(fileUrl, BlobScheme)
  }
}
